=== FILE: README.md ===
# Movie watchlist: form validation and table mutations in Dafny

This project models the two places of the movie-watchlist app that hold real
logic, and proves properties of them.

- **The add/edit form** (`MovieFormModal.tsx`). It covers the three text fields,
  the digit-only filters and length caps on the year and rating inputs, and
  `validate`. Validation checks the title, then the year, then the rating, and
  the first failure sets the message. It also covers `handleSave`, which writes
  only a validated form, only in add mode, and with the trimmed title. The
  JavaScript pieces these rely on, `String.prototype.trim`,
  `replace(/[^0-9]/g, '')` and global `parseInt` with no radix, are modelled
  from their definitions. The text input's `maxLength` cap is modelled as
  keeping the first `maxLength` characters.
- **The `movies` table and the `useMovies` hook** (`useMovies.ts`). The table is
  a map from id to row plus an autoincrement counter. The insert, toggle-watched,
  update and delete statements act on one row each and leave everything else
  alone. The hook wraps each statement in `try`. A throwing write returns false
  and changes nothing. A successful write returns true and reloads the whole
  table into the hook's `movies` snapshot, unless the reload throws; then the
  old snapshot stays.

Modules, one per file:

| file | module | models |
|---|---|---|
| `types.dfy` | `Types` | the `Movie` record, `Option`, the 0/1 watched flag |
| `js_text.dfy` | `JsText` | trim, the digit filter, the `maxLength` cap, `parseInt` |
| `movie_store.dfy` | `MovieStore` | the table and the four SQL statements |
| `use_movies.dfy` | `UseMovies` | the hook: `loadMovies`, the mount load, the four mutations |
| `movie_form_modal.dfy` | `MovieFormModal` | form state, input handlers, `validate`, `handleSave` |

Behaviour of the code that the model keeps as written:

- A year that `parseInt` reads as 0 ("0", "0000") is falsy. The guard
  `yearNum && …` then skips the range test, so the year is accepted and
  inserted as 0 (`ZeroYearSkipsRangeCheck`). The rating guard is `!== null`, so
  a rating of "0" is tested and refused (`ZeroRatingRejected`).
- `toggleWatched` writes the opposite of the flag its caller passes, not of the
  stored flag. A stale flag therefore rewrites the value the row already has
  (`StaleToggleChangesNothing`).
- Toggle, update and delete do not check that the id exists. For a missing id
  they change nothing and still return true (`AbsentIdLeavesTable`).
- In edit mode `handleSave` does not write. It shows a "not yet available"
  notice and closes. `updateMovie` exists in the hook but the form never calls
  it.
- The record type declares `year` non-null, but insert and update can bind
  null. `Movie.year` is an `Option<int>` here.
- The form gets its insert function from its own `useMovies()` call. The hook
  instance it reloads is therefore the form's own, not the list screen's. The
  model returns the form's hook state from `HandleSave`.

Parameters stand in for what the code reads from its environment. The current
calendar year is `currentYear`. `Date.now()` is `now`. Whether the write or the
reload throws is `Faults(writeThrows, loadThrows)`.

## Model

| member | source | states |
|---|---|---|
| `JsText.Trim` | MovieFormModal.tsx:40 | the trimmed title is the slice of the input between a whitespace-only prefix and a whitespace-only suffix; it is empty exactly when the title is all whitespace, and otherwise starts and ends with non-whitespace |
| `JsText.TrimIdempotent` | MovieFormModal.tsx:70 | trimming the already trimmed title that `handleSave` inserts changes nothing |
| `JsText.DigitsOnly` | MovieFormModal.tsx:101 | the year/rating filter leaves only ASCII digits, never lengthens the text, and returns the text unchanged exactly when it is already all digits |
| `JsText.DigitsOnlyCounts` | MovieFormModal.tsx:109 | the filter keeps every digit as many times as it occurs and no other character |
| `JsText.DigitsOnlyAppend` | MovieFormModal.tsx:101 | the filter works character by character: filtering a concatenation is concatenating the filtered parts |
| `JsText.DigitsOnlyIdempotent` | MovieFormModal.tsx:109 | filtering filtered text changes nothing |
| `JsText.Cap` | MovieFormModal.tsx:103 | the input cap hands over a prefix of the typed text: all of it when it is short enough, and exactly `maxLength` characters otherwise |
| `JsText.ParseInt` | MovieFormModal.tsx:44 | `parseInt` yields a number only when the text after leading whitespace starts with a digit or a sign; a leading digit that does not open a `0x` prefix always yields a number, and it is not negative; after a `-` the number is never positive |
| `JsText.ParseIntOfDigits` | MovieFormModal.tsx:44 | `parseInt` of a non-empty digit string is its decimal value |
| `JsText.ParseIntNaN` | MovieFormModal.tsx:49 | `parseInt` of text starting with a character that is not whitespace, a sign or a digit is NaN |
| `JsText.ParseIntOfDecimal` | MovieFormModal.tsx:44 | `parseInt` reads back the decimal rendering of every natural number |
| `JsText.ValueBound` | MovieFormModal.tsx:103 | a digit string of length n denotes a number below 10^n |
| `MovieStore.Insert` | useMovies.ts:34-36 | insert adds exactly one row under a fresh id, with the given title, year and rating, watched 0 and the clock value as creation time; every existing row is kept and the table stays well formed |
| `MovieStore.SetWatched` | useMovies.ts:49-51 | the watched update changes only that field of the matching row; every other row and field is kept; with no matching row nothing changes |
| `MovieStore.Update` | useMovies.ts:63-66 | the update overwrites title, year and rating of the matching row and keeps its id, watched flag and creation time and every other row; with no matching row nothing changes |
| `MovieStore.Delete` | useMovies.ts:77 | delete removes exactly the matching row, keeps all others and does not move the id counter back |
| `MovieStore.DeleteUndoesInsert` | useMovies.ts:77 | deleting the row just inserted restores the rows, while the id counter stays advanced |
| `MovieStore.UpdateRoundTrip` | useMovies.ts:63-66 | writing a row's old title, year and rating back undoes an update |
| `MovieStore.SetWatchedSame` | useMovies.ts:49-51 | writing a row's current watched value changes nothing |
| `MovieStore.DeletedIdNotReused` | useMovies.ts:34-36 | after a delete, the next insert gets an id other than the deleted one |
| `UseMovies.LoadMovies` | useMovies.ts:12-23 | a reload replaces the snapshot with the whole table; a throwing read keeps the old snapshot; the table is never touched |
| `UseMovies.Mount` | useMovies.ts:26-28 | the mount effect loads the table into an initially empty snapshot |
| `UseMovies.Commit` | useMovies.ts:33-43 | the shared try/catch: true exactly when the write does not throw; on failure nothing changes; on success the table is the written one and the snapshot shows it unless the reload throws |
| `UseMovies.InsertMovie` | useMovies.ts:32-44 | `insertMovie` returns true exactly when the write succeeds, then the table has exactly one new unwatched row stamped with the clock, the table stays well formed, and the snapshot shows the table unless the reload throws; on failure nothing changes |
| `UseMovies.Flip` | useMovies.ts:47 | the new flag differs from the flag passed in |
| `UseMovies.ToggleWatched` | useMovies.ts:46-59 | `toggleWatched` sets the row's flag to 1 minus the flag passed in and changes no other field or row, keeps the id counter and the table well formed; it returns false and changes nothing when the write throws |
| `UseMovies.UpdateMovie` | useMovies.ts:61-73 | `updateMovie` rewrites title, year and rating of the row and keeps its id, flag and creation time, all other rows and the id counter; it returns false and changes nothing when the write throws |
| `UseMovies.DeleteMovie` | useMovies.ts:75-84 | `deleteMovie` removes the row and keeps all others and the id counter; it returns false and changes nothing when the write throws |
| `UseMovies.FlipTwice` | useMovies.ts:47 | flipping twice restores the flag |
| `UseMovies.ToggleTwiceRestores` | useMovies.ts:46-54 | toggling a row twice, passing its current flag each time, restores the table |
| `UseMovies.StaleToggleChangesNothing` | useMovies.ts:46-51 | passing the opposite of the stored flag leaves the table unchanged |
| `UseMovies.AbsentIdLeavesTable` | useMovies.ts:46-84 | for an id in no row, toggle, update and delete leave the table unchanged and still return true unless the write throws |
| `UseMovies.ToggleAndDeleteKeepRowFields` | useMovies.ts:46-84 | a toggle keeps every row's title, year, rating and creation time; a delete keeps every row but the deleted one |
| `UseMovies.InsertDuneIntoEmptyTable` | useMovies.ts:32-44 | inserting "Dune", 2021, 4 into an empty table leaves exactly that one unwatched row, and the snapshot shows it |
| `MovieFormModal.NumberOf` | MovieFormModal.tsx:44 | a field reads as null exactly when it is empty |
| `MovieFormModal.Validate` | MovieFormModal.tsx:39-56 | the title message is chosen exactly when the title is all whitespace, whatever the other fields hold |
| `MovieFormModal.ErrorAfter` | MovieFormModal.tsx:39-56 | the message is cleared exactly when validation passes and is the failing check's message otherwise |
| `MovieFormModal.ValidateOnDigits` | MovieFormModal.tsx:39-56 | on digit fields, validation accepts exactly when the title is not blank, the year is empty, 0 or in [1900, current year], and the rating is empty or in [1, 5]; otherwise a year failure is reported before a rating failure |
| `MovieFormModal.DigitFieldNumber` | MovieFormModal.tsx:44-49 | a non-empty digit field reads as its decimal value |
| `MovieFormModal.EmptyNumbersAccepted` | MovieFormModal.tsx:44-55 | a valid title with empty year and rating is accepted and clears the message |
| `MovieFormModal.ZeroYearSkipsRangeCheck` | MovieFormModal.tsx:44-45 | a year of all zeros is accepted, because 0 is falsy and skips the range test |
| `MovieFormModal.ZeroRatingRejected` | MovieFormModal.tsx:49-50 | a rating of "0" is refused with the rating message |
| `MovieFormModal.NaNRatingWouldPass` | MovieFormModal.tsx:49-50 | rating text that parses to NaN would pass the rating check, since both comparisons are false |
| `MovieFormModal.Initial` | MovieFormModal.tsx:19-22 | the form starts with three empty fields, which satisfy the form invariant, and no message |
| `MovieFormModal.NumericInput` | MovieFormModal.tsx:101-111 | a numeric input stores only digits, at most `maxLength` of them: each digit of the first `maxLength` typed characters exactly as often as it occurs there, and nothing else; text that already fits is stored as typed |
| `MovieFormModal.NumericInputCapFirst` | MovieFormModal.tsx:101-103 | only the first `maxLength` typed characters reach the digit filter; with `NumericInputAppend` this fixes the order of the stored digits for text of any length |
| `MovieFormModal.NumericInputAppend` | MovieFormModal.tsx:101 | within the cap, the digits of two pieces of text are stored in the order they were typed, so the filter keeps the typed order of the digits |
| `MovieFormModal.OnTitleText` | MovieFormModal.tsx:95 | typing in the title stores the text as typed and changes nothing else, the message included |
| `MovieFormModal.OnYearText` | MovieFormModal.tsx:101-103 | typing in the year stores the digits of the first 4 typed characters (at most 4 digits) and changes nothing else, the message included |
| `MovieFormModal.OnRatingText` | MovieFormModal.tsx:109-111 | typing in the rating stores the digits of the first typed character (at most 1 digit) and changes nothing else, the message included |
| `MovieFormModal.OnOpen` | MovieFormModal.tsx:26-36 | opening in add mode clears all fields, and opening in edit mode keeps them; the message is cleared either way |
| `MovieFormModal.ReachableNumbers` | MovieFormModal.tsx:97-112 | in every reachable form, the year reads as null or 0..9999 and the rating as null or 0..9, never NaN |
| `MovieFormModal.Argument` | MovieFormModal.tsx:61-62 | the value passed on is null exactly for a null field and otherwise the parsed number |
| `MovieFormModal.HandleSave` | MovieFormModal.tsx:58-78 | the table stays well formed and the id counter never moves back; a rejected form shows its message, writes nothing and stays open; a valid form in edit mode only closes; a valid form in add mode closes and shows the added notice exactly when the insert succeeds, shows the failure notice and changes nothing in the hook when it throws, and leaves the snapshot showing the table when neither the insert nor the reload throws; the table changes only through that insert, which adds one row holding the trimmed title and the fields' decimal values |
| `MovieFormModal.SaveKeepsRowsOk` | MovieFormModal.tsx:58-78 | every row written through the form has a trimmed non-blank title, a year that is null, 0 or in range, and a rating that is null or in [1, 5] |
| `MovieFormModal.SaveWritesIffValid` | MovieFormModal.tsx:59-70 | in add mode the table changes exactly when validation passes and the write does not throw |
| `MovieFormModal.AddToEmptyTable` | MovieFormModal.tsx:68-77 | a valid add into an empty table leaves exactly the one row it wrote, closes the form and shows the success notice |
| `MovieFormModal.EmptyTitleRefused` | MovieFormModal.tsx:40-43 | an empty title with year 2020 and rating 3 is refused with the title message and writes nothing |
| `MovieFormModal.Year1899Refused` | MovieFormModal.tsx:44-48 | "Old Film" with year 1899 is refused with the year message |

## Left out

- `db.ts`: the promise and transaction wrapper around the SQLite driver is I/O
  plumbing. The names the other files import from it (`getMovies`, `initDB`,
  the default `db`, `runSync`) are not defined there. Table creation, the
  three seed rows, and the order of the listing query are therefore not part
  of this model.
- The search, watched-filter and sort view: no such logic exists in these
  files, only the `WatchedFilter` import.
- `App.tsx` and `MovieListScreen.tsx`: rendering, modal visibility, the
  loading flag and the rating/watched display conditions are presentation.
- React hook machinery (`useState`, `useCallback`, `useEffect`
  dependencies), `Alert` texts and `console.error` are left out. The alerts
  become the `Notice` values, and the three messages become `FormError`
  values. The Vietnamese texts, including the current year inside the year
  message, are not modelled.
- SQLite's autoincrement and atomicity: autoincrement is an id counter that
  only grows, and each statement is one all-or-nothing step.
- UseMovies.LoadMovies: the snapshot is a map from id to row rather than an
  ordered list, because the listing query is not part of this model.
  `getMovies` is not defined in `useMovies.ts`; the model takes it to return
  every row of the table, which is what setting the snapshot to the table's
  rows rests on.
- JsText.ParseInt: numbers are exact integers. JavaScript's loss of
  precision above 2^53 is not modelled. Negative zero is folded into 0, which
  compares the same in every test the form makes. A form field holds at most 4
  digits, so neither difference can arise there.
- JsText.Cap: the `maxLength` cap is modelled as keeping the first
  `maxLength` characters of what is typed or pasted. The native widget's exact
  behaviour is platform code.
- Strings are sequences of Unicode scalar values, not UTF-16 code units.
  Trim and the digit filter treat every character the same way under both
  readings.
- JsText.Cap: counts Unicode scalar values, while the native input counts
  UTF-16 code units. With a character outside the Basic Multilingual Plane the
  two differ: "😀😀12" capped at 4 is "😀😀12" here but "😀😀" in the app, so
  the year field gets "12" here and "" in the app.
- JsText.ParseInt: the sign, `0x` and whitespace branches are modelled, but
  the contracts state them only as the sign of the result and when it is a
  number. The exact value is stated only for digit strings
  (`ParseIntOfDigits`, `ParseIntOfDecimal`).

=== FILE: js_text.dfy ===
/**
  The JavaScript string primitives the form relies on, over `seq<char>`:
  `String.prototype.trim`, the `replace(/[^0-9]/g, '')` digit filter, the
  `maxLength` cap of a text input, and global `parseInt` with no radix.
 */
module JsText {

  // ---------------------------------------------------------------------------
  // Whitespace and trim
  // ---------------------------------------------------------------------------

  /**
    The ECMAScript WhiteSpace and LineTerminator code points: exactly what
    `trim` removes and what `parseInt` skips before the number.
   */
  predicate IsWhiteSpace(c: char) {
    || c == '\t' || c == '\n' || c == '\U{000B}' || c == '\U{000C}' || c == '\r'
    || c == ' ' || c == '\U{00A0}' || c == '\U{1680}'
    || ('\U{2000}' <= c <= '\U{200A}')
    || c == '\U{2028}' || c == '\U{2029}' || c == '\U{202F}' || c == '\U{205F}'
    || c == '\U{3000}' || c == '\U{FEFF}'
  }

  /** Every character is whitespace (the empty string included). */
  predicate IsBlank(s: string) {
    forall i :: 0 <= i < |s| ==> IsWhiteSpace(s[i])
  }

  /** The index of the first character at or after `i` that is not whitespace, or `|s|`. */
  function SkipForward(s: string, i: nat): (j: nat)
    requires i <= |s|
    ensures i <= j <= |s|
    ensures forall k :: i <= k < j ==> IsWhiteSpace(s[k])
    ensures j == |s| || !IsWhiteSpace(s[j])
    decreases |s| - i
  {
    if i < |s| && IsWhiteSpace(s[i]) then SkipForward(s, i + 1) else i
  }

  /**
    The end of `s[lo..j]` once its trailing whitespace is dropped: the least
    `e` from `lo` such that `s[e..j]` is all whitespace.
   */
  function SkipBackward(s: string, lo: nat, j: nat): (e: nat)
    requires lo <= j <= |s|
    ensures lo <= e <= j
    ensures forall k :: e <= k < j ==> IsWhiteSpace(s[k])
    ensures e == lo || !IsWhiteSpace(s[e - 1])
    decreases j
  {
    if j > lo && IsWhiteSpace(s[j - 1]) then SkipBackward(s, lo, j - 1) else j
  }

  /** `s` without its leading whitespace: what `parseInt` skips first. */
  function TrimStart(s: string): (r: string)
    ensures |r| <= |s| && r == s[|s| - |r|..]
    ensures forall k :: 0 <= k < |s| - |r| ==> IsWhiteSpace(s[k])
    ensures r == [] || !IsWhiteSpace(r[0])
  {
    s[SkipForward(s, 0)..]
  }

  /**
    `s.trim()`: the slice of `s` left between its leading and its trailing
    whitespace. It is empty exactly when `s` is blank, and otherwise starts
    and ends with a character that is not whitespace.
   */
  function Trim(s: string): (r: string)
    ensures var i := SkipForward(s, 0);
      && i + |r| <= |s| && r == s[i..i + |r|]
      && (forall k :: 0 <= k < i ==> IsWhiteSpace(s[k]))
      && (forall k :: i + |r| <= k < |s| ==> IsWhiteSpace(s[k]))
    ensures r == [] <==> IsBlank(s)
    ensures r != [] ==> !IsWhiteSpace(r[0]) && !IsWhiteSpace(r[|r| - 1])
  {
    var i := SkipForward(s, 0);
    var j := SkipBackward(s, i, |s|);
    assert j == i ==> IsBlank(s);
    s[i..j]
  }

  /** Trimming twice is trimming once. */
  lemma TrimIdempotent(s: string)
    ensures Trim(Trim(s)) == Trim(s)
  {
  }

  // ---------------------------------------------------------------------------
  // Digit filter and the maxLength cap
  // ---------------------------------------------------------------------------

  predicate IsDigit(c: char) {
    '0' <= c <= '9'
  }

  predicate IsDigits(s: string) {
    forall i :: 0 <= i < |s| ==> IsDigit(s[i])
  }

  /**
    `s.replace(/[^0-9]/g, '')`: keeps the ASCII digits of `s`, in order, and
    every one of them; drops every other character.
   */
  function DigitsOnly(s: string): (r: string)
    ensures IsDigits(r)
    ensures |r| <= |s|
    ensures r == s <==> IsDigits(s)
  {
    if s == [] then []
    else if IsDigit(s[0]) then
      assert IsDigits(s) ==> IsDigits(s[1..]);
      [s[0]] + DigitsOnly(s[1..])
    else
      assert !IsDigits(s);
      DigitsOnly(s[1..])
  }

  /**
    The filter keeps every digit of `s` as often as it occurs, and nothing
    else.
   */
  lemma {:induction false} DigitsOnlyCounts(s: string)
    ensures forall c :: IsDigit(c) ==> multiset(DigitsOnly(s))[c] == multiset(s)[c]
    ensures forall c :: !IsDigit(c) ==> multiset(DigitsOnly(s))[c] == 0
  {
    if s != [] {
      DigitsOnlyCounts(s[1..]);
      assert s == [s[0]] + s[1..];
      assert multiset(s) == multiset{s[0]} + multiset(s[1..]);
    }
  }

  /** The filter works character by character: it distributes over concatenation. */
  lemma {:induction false} DigitsOnlyAppend(a: string, b: string)
    ensures DigitsOnly(a + b) == DigitsOnly(a) + DigitsOnly(b)
  {
    if a == [] {
      assert a + b == b;
    } else {
      assert (a + b)[1..] == a[1..] + b;
      DigitsOnlyAppend(a[1..], b);
    }
  }

  /** Filtering an already filtered text changes nothing. */
  lemma DigitsOnlyIdempotent(s: string)
    ensures DigitsOnly(DigitsOnly(s)) == DigitsOnly(s)
  {
  }

  /**
    The `maxLength` cap of a text input: the widget hands over at most the
    first `n` characters of what was typed.
   */
  function Cap(s: string, n: nat): (r: string)
    ensures |r| <= n && |r| <= |s| && r == s[..|r|]
    ensures |s| <= n ==> r == s
    ensures |s| > n ==> |r| == n
  {
    if |s| <= n then s else s[..n]
  }

  // ---------------------------------------------------------------------------
  // parseInt
  // ---------------------------------------------------------------------------

  /**
    The value of a character as a digit in radix up to 36; 36 for a
    character that is no digit at all.
   */
  function DigitValue(c: char): (d: nat)
    ensures d <= 36
    ensures IsDigit(c) <==> d < 10
  {
    if '0' <= c <= '9' then (c as int) - ('0' as int)
    else if 'a' <= c <= 'z' then (c as int) - ('a' as int) + 10
    else if 'A' <= c <= 'Z' then (c as int) - ('A' as int) + 10
    else 36
  }

  predicate IsRadixDigit(c: char, radix: nat) {
    DigitValue(c) < radix
  }

  /** The number a string of digits denotes in the given radix, most significant digit first. */
  function Value(s: string, radix: nat): nat {
    if s == [] then 0 else Value(s[..|s| - 1], radix) * radix + DigitValue(s[|s| - 1])
  }

  /** The longest prefix of `s` made of digits of the radix. */
  function DigitPrefix(s: string, radix: nat): (r: string)
    ensures |r| <= |s| && r == s[..|r|]
    ensures forall i :: 0 <= i < |r| ==> IsRadixDigit(r[i], radix)
    ensures |r| == |s| || !IsRadixDigit(s[|r|], radix)
  {
    if s != [] && IsRadixDigit(s[0], radix) then [s[0]] + DigitPrefix(s[1..], radix) else []
  }

  /**
    A JavaScript number as `parseInt` can produce it. Negative zero is folded
    into `Num(0)`: the two compare alike in every comparison the form makes.
   */
  datatype JsNumber = NaN | Num(value: int)

  /**
    Global `parseInt(s)` with no radix argument: skip leading whitespace, read
    an optional sign, then the magnitude.
   */
  function ParseInt(s: string): (r: JsNumber)
    ensures var t := TrimStart(s);
      r.Num? ==> t != [] && (IsDigit(t[0]) || t[0] == '-' || t[0] == '+')
    ensures var t := TrimStart(s);
      t != [] && IsDigit(t[0]) && !IsHexPrefix(t) ==> r.Num? && r.value >= 0
    ensures var t := TrimStart(s);
      t != [] && t[0] == '-' && r.Num? ==> r.value <= 0
  {
    var t := TrimStart(s);
    if |t| > 0 && t[0] == '-' then Negate(ParseMagnitude(t[1..]))
    else if |t| > 0 && t[0] == '+' then ParseMagnitude(t[1..])
    else ParseMagnitude(t)
  }

  function Negate(n: JsNumber): JsNumber {
    match n
    case NaN => NaN
    case Num(v) => Num(-v)
  }

  /** `u` starts with `0x` or `0X`. */
  predicate IsHexPrefix(u: string) {
    |u| >= 2 && u[0] == '0' && (u[1] == 'x' || u[1] == 'X')
  }

  /**
    The unsigned part of `parseInt`: radix 16 after a `0x`/`0X` prefix and
    radix 10 otherwise, then the longest run of digits of that radix; no
    digit at all is NaN.
   */
  function ParseMagnitude(u: string): (n: JsNumber)
    ensures n.Num? ==> n.value >= 0
    ensures n.Num? ==> u != [] && IsDigit(u[0])
    ensures u != [] && IsDigit(u[0]) && !IsHexPrefix(u) ==> n.Num?
  {
    var hex := IsHexPrefix(u);
    var radix := if hex then 16 else 10;
    var z := DigitPrefix(if hex then u[2..] else u, radix);
    if z == [] then NaN else Num(Value(z, radix))
  }

  /** On a non-empty string of ASCII digits, `parseInt` yields its decimal value. */
  lemma ParseIntOfDigits(s: string)
    requires s != [] && IsDigits(s)
    ensures ParseInt(s) == Num(Value(s, 10))
  {
    assert IsDigit(s[0]);
    assert TrimStart(s) == s;
    assert |s| >= 2 ==> IsDigit(s[1]);
    DigitPrefixWhole(s, 10);
  }

  /**
    Text whose first character is neither whitespace, nor a sign, nor a
    decimal digit reads as NaN.
   */
  lemma ParseIntNaN(s: string)
    requires s != [] && !IsWhiteSpace(s[0]) && !IsDigit(s[0]) && s[0] != '-' && s[0] != '+'
    ensures ParseInt(s) == NaN
  {
  }

  /** A string made only of digits of the radix is its own longest digit prefix. */
  lemma DigitPrefixWhole(s: string, radix: nat)
    requires forall i :: 0 <= i < |s| ==> IsRadixDigit(s[i], radix)
    ensures DigitPrefix(s, radix) == s
  {
  }

  /** Ten to the power `n`. */
  function Pow10(n: nat): nat {
    if n == 0 then 1 else 10 * Pow10(n - 1)
  }

  /** Ten to a larger power is larger. */
  lemma {:induction false} Pow10Monotone(m: nat, n: nat)
    requires m <= n
    ensures Pow10(m) <= Pow10(n)
  {
    if m < n {
      Pow10Monotone(m, n - 1);
    }
  }

  /** A string of `n` decimal digits denotes a number below ten to the `n`. */
  lemma {:induction false} ValueBound(s: string)
    requires IsDigits(s)
    ensures Value(s, 10) < Pow10(|s|)
  {
    if s != [] {
      ValueBound(s[..|s| - 1]);
    }
  }

  /** The decimal rendering of a natural number: digits only, no leading zero. */
  function ToDecimal(n: nat): (r: string)
    ensures r != [] && IsDigits(r)
    ensures r[0] == '0' ==> n == 0 && |r| == 1
  {
    if n < 10 then [('0' as int + n) as char]
    else ToDecimal(n / 10) + [('0' as int + n % 10) as char]
  }

  /** Reading back the decimal rendering gives the number again. */
  lemma {:induction false} ValueOfDecimal(n: nat)
    ensures Value(ToDecimal(n), 10) == n
  {
    var r := ToDecimal(n);
    if n >= 10 {
      ValueOfDecimal(n / 10);
      assert r[..|r| - 1] == ToDecimal(n / 10);
    } else {
      assert r[..0] == [];
    }
  }

  /** `parseInt` inverts the decimal rendering of every natural number. */
  lemma ParseIntOfDecimal(n: nat)
    ensures ParseInt(ToDecimal(n)) == Num(n)
  {
    ParseIntOfDigits(ToDecimal(n));
    ValueOfDecimal(n);
  }
}

=== FILE: movie_form_modal.dfy ===
/**
  The add/edit movie form: its three text fields and error message, the
  digit-only filters on the year and rating inputs, `validate`, and
  `handleSave`, which writes only a validated form and only in add mode.
  The calendar year the module reads once at load time is a parameter here.
 */
module MovieFormModal {
  import opened Types
  import opened JsText
  import opened MovieStore
  import opened UseMovies

  const MinYear := 1900
  const MinRating := 1
  const MaxRating := 5
  const YearMaxLength := 4
  const RatingMaxLength := 1

  /** The three messages `validate` can set. */
  datatype FormError = TitleRequired | YearOutOfRange | RatingOutOfRange

  datatype Verdict = Accepted | Rejected(reason: FormError)

  /** The form's state; an `error` of `None` is the empty message. */
  datatype Form = Form(title: string, year: string, rating: string, error: Option<FormError>)

  // ---------------------------------------------------------------------------
  // validate
  // ---------------------------------------------------------------------------

  /** `text ? parseInt(text) : null`: the empty string is falsy and gives null. */
  function NumberOf(text: string): (n: Option<JsNumber>)
    ensures n.None? <==> text == []
  {
    if text == [] then None else Some(ParseInt(text))
  }

  /** JavaScript truthiness of `number | null`: null, NaN and 0 are falsy. */
  predicate Truthy(n: Option<JsNumber>) {
    n.Some? && n.value.Num? && n.value.value != 0
  }

  /** `yearNum && (yearNum < 1900 || yearNum > CURRENT_YEAR)`. */
  predicate YearFails(yearNum: Option<JsNumber>, currentYear: int) {
    Truthy(yearNum) && (yearNum.value.value < MinYear || yearNum.value.value > currentYear)
  }

  /**
    `ratingNum !== null && (ratingNum < 1 || ratingNum > 5)`; both comparisons
    are false for NaN.
   */
  predicate RatingFails(ratingNum: Option<JsNumber>) {
    ratingNum.Some? && ratingNum.value.Num?
    && (ratingNum.value.value < MinRating || ratingNum.value.value > MaxRating)
  }

  /**
    `validate`: the title check, then the year check, then the rating check;
    the first that fails decides the message. A title is refused exactly when
    it is blank, whatever the other two fields hold.
   */
  function Validate(title: string, year: string, rating: string, currentYear: int): (v: Verdict)
    ensures v == Rejected(TitleRequired) <==> IsBlank(title)
  {
    if Trim(title) == [] then Rejected(TitleRequired)
    else if YearFails(NumberOf(year), currentYear) then Rejected(YearOutOfRange)
    else if RatingFails(NumberOf(rating)) then Rejected(RatingOutOfRange)
    else Accepted
  }

  /** What `validate` leaves in the error state: the message, or the empty one. */
  function ErrorAfter(v: Verdict): (e: Option<FormError>)
    ensures e.None? <==> v.Accepted?
    ensures v.Rejected? ==> e == Some(v.reason)
  {
    match v
    case Accepted => None
    case Rejected(reason) => Some(reason)
  }

  /**
    The year a digit field allows: empty, the value 0 (falsy, so the range
    test is skipped), or a year from 1900 to the current one.
   */
  predicate YearAllowed(year: string, currentYear: int) {
    year == [] || Value(year, 10) == 0 || MinYear <= Value(year, 10) <= currentYear
  }

  /** The rating a digit field allows: empty, or 1 to 5. */
  predicate RatingAllowed(rating: string) {
    rating == [] || MinRating <= Value(rating, 10) <= MaxRating
  }

  /**
    On digit fields, `validate` in terms of the decimal values: it accepts
    exactly when all three fields are allowed, and otherwise names the first
    field, in the order title, year, rating, that is not.
   */
  lemma ValidateOnDigits(title: string, year: string, rating: string, currentYear: int)
    requires IsDigits(year) && IsDigits(rating)
    ensures Validate(title, year, rating, currentYear) == Accepted
      <==> !IsBlank(title) && YearAllowed(year, currentYear) && RatingAllowed(rating)
    ensures !IsBlank(title) && !YearAllowed(year, currentYear) ==>
      Validate(title, year, rating, currentYear) == Rejected(YearOutOfRange)
    ensures !IsBlank(title) && YearAllowed(year, currentYear) && !RatingAllowed(rating) ==>
      Validate(title, year, rating, currentYear) == Rejected(RatingOutOfRange)
  {
    DigitFieldNumber(year);
    DigitFieldNumber(rating);
  }

  /** A digit field reads as null when empty and as its decimal value otherwise. */
  lemma DigitFieldNumber(text: string)
    requires IsDigits(text)
    ensures text != [] ==> NumberOf(text) == Some(Num(Value(text, 10)))
  {
    if text != [] {
      ParseIntOfDigits(text);
    }
  }

  /** A non-blank title with empty year and rating is accepted and clears the message. */
  lemma EmptyNumbersAccepted(title: string, currentYear: int)
    requires !IsBlank(title)
    ensures Validate(title, "", "", currentYear) == Accepted
    ensures ErrorAfter(Validate(title, "", "", currentYear)) == None
  {
  }

  /**
    A year of all zeros is falsy after `parseInt` and skips the range test:
    "0" and "0000" are accepted although no year below 1900 should be.
   */
  lemma ZeroYearSkipsRangeCheck(title: string, zeros: string, currentYear: int)
    requires !IsBlank(title)
    requires zeros != [] && forall i :: 0 <= i < |zeros| ==> zeros[i] == '0'
    ensures Validate(title, zeros, "", currentYear) == Accepted
  {
    ZerosValue(zeros);
    ValidateOnDigits(title, zeros, "", currentYear);
  }

  /** A string of zeros denotes zero. */
  lemma {:induction false} ZerosValue(zeros: string)
    requires forall i :: 0 <= i < |zeros| ==> zeros[i] == '0'
    ensures IsDigits(zeros) && Value(zeros, 10) == 0
  {
    if zeros != [] {
      ZerosValue(zeros[..|zeros| - 1]);
    }
  }

  /** Unlike the year, a rating of "0" is tested (null is the only bypass) and refused. */
  lemma ZeroRatingRejected(title: string, currentYear: int)
    requires !IsBlank(title)
    ensures Validate(title, "", "0", currentYear) == Rejected(RatingOutOfRange)
  {
    ZerosValue("0");
    ValidateOnDigits(title, "", "0", currentYear);
  }

  /**
    A rating that is not a number would pass, since NaN fails both
    comparisons; the digit filter keeps such text out of the form.
   */
  lemma NaNRatingWouldPass(title: string, rating: string, currentYear: int)
    requires !IsBlank(title)
    requires rating != [] && !IsWhiteSpace(rating[0]) && !IsDigit(rating[0])
    requires rating[0] != '-' && rating[0] != '+'
    ensures Validate(title, "", rating, currentYear) == Accepted
  {
  }

  // ---------------------------------------------------------------------------
  // Field events
  // ---------------------------------------------------------------------------

  /** A numeric field holds only digits, no more than its maximum length. */
  predicate FieldHolds(text: string, maxLength: nat) {
    IsDigits(text) && |text| <= maxLength
  }

  /** What every state of the form satisfies. */
  predicate Reachable(f: Form) {
    FieldHolds(f.year, YearMaxLength) && FieldHolds(f.rating, RatingMaxLength)
  }

  /** The form as first rendered. */
  function Initial(): (f: Form)
    ensures Reachable(f) && f.error.None?
    ensures f.title == [] && f.year == [] && f.rating == []
  {
    Form("", "", "", None)
  }

  /**
    A numeric input's `onChangeText`: the widget caps the text at `maxLength`
    characters and the handler keeps only their digits. Text that is already
    a short enough digit string is stored as typed.
   */
  function NumericInput(text: string, maxLength: nat): (r: string)
    ensures FieldHolds(r, maxLength)
    ensures FieldHolds(text, maxLength) ==> r == text
    ensures forall c :: IsDigit(c) ==> multiset(r)[c] == multiset(Cap(text, maxLength))[c]
  {
    DigitsOnlyCounts(Cap(text, maxLength));
    DigitsOnly(Cap(text, maxLength))
  }

  /**
    Within the cap the handler works character by character: the digits of
    two pieces of text are stored in the order they were typed.
   */
  lemma NumericInputAppend(a: string, b: string, maxLength: nat)
    requires |a + b| <= maxLength
    ensures NumericInput(a + b, maxLength) == NumericInput(a, maxLength) + NumericInput(b, maxLength)
  {
    DigitsOnlyAppend(a, b);
  }

  /**
    Only the capped text reaches the filter: the handler stores what it would
    store for the first `maxLength` characters alone. With `NumericInputAppend`
    this fixes the order of the stored digits for text of any length.
   */
  lemma NumericInputCapFirst(text: string, maxLength: nat)
    ensures NumericInput(text, maxLength) == NumericInput(Cap(text, maxLength), maxLength)
  {
  }

  /** The title's `onChangeText`: the text is stored as typed; nothing else changes. */
  function OnTitleText(f: Form, text: string): (r: Form)
    ensures Reachable(f) ==> Reachable(r)
    ensures r.title == text && r.year == f.year && r.rating == f.rating && r.error == f.error
  {
    f.(title := text)
  }

  /** The year's `onChangeText`: the filtered, capped text replaces the year; nothing else changes. */
  function OnYearText(f: Form, text: string): (r: Form)
    ensures Reachable(f) ==> Reachable(r)
    ensures r.year == NumericInput(text, YearMaxLength) && FieldHolds(r.year, YearMaxLength)
    ensures r.title == f.title && r.rating == f.rating && r.error == f.error
  {
    f.(year := NumericInput(text, YearMaxLength))
  }

  /** The rating's `onChangeText`: the filtered, capped text replaces the rating; nothing else changes. */
  function OnRatingText(f: Form, text: string): (r: Form)
    ensures Reachable(f) ==> Reachable(r)
    ensures r.rating == NumericInput(text, RatingMaxLength) && FieldHolds(r.rating, RatingMaxLength)
    ensures r.title == f.title && r.year == f.year && r.error == f.error
  {
    f.(rating := NumericInput(text, RatingMaxLength))
  }

  /**
    The effect run when the form opens or its target changes: in add mode the
    three fields are cleared; in edit mode they are left as they are, since
    loading the movie into the form is not written. The message is cleared
    either way.
   */
  function OnOpen(f: Form, editing: bool): (r: Form)
    ensures Reachable(f) ==> Reachable(r)
    ensures r.error.None?
    ensures !editing ==> r == Initial()
    ensures editing ==> r.title == f.title && r.year == f.year && r.rating == f.rating
  {
    if editing then f.(error := None) else Initial()
  }

  /**
    In every reachable form the year field reads as null or a number from 0
    to 9999 and the rating field as null or a number from 0 to 9: never NaN.
   */
  lemma ReachableNumbers(f: Form)
    requires Reachable(f)
    ensures NumberOf(f.year) == None || (NumberOf(f.year).value.Num? && 0 <= NumberOf(f.year).value.value <= 9999)
    ensures NumberOf(f.rating) == None || (NumberOf(f.rating).value.Num? && 0 <= NumberOf(f.rating).value.value <= 9)
  {
    DigitFieldNumber(f.year);
    DigitFieldNumber(f.rating);
    ValueBound(f.year);
    ValueBound(f.rating);
    assert Pow10(|f.year|) <= 10000 by {
      assert Pow10(4) == 10000;
      Pow10Monotone(|f.year|, 4);
    }
  }

  // ---------------------------------------------------------------------------
  // handleSave
  // ---------------------------------------------------------------------------

  /** The alert `handleSave` raises, if any. */
  datatype Notice = NoNotice | Added | AddFailed | EditPending

  /** The form, this form's hook instance, whether the form closed, and the alert shown. */
  datatype Saved = Saved(form: Form, hook: State, closed: bool, notice: Notice)

  /** The number-or-null `handleSave` passes on for a field that is not NaN. */
  function Argument(n: Option<JsNumber>): (a: Option<int>)
    requires n != Some(NaN)
    ensures a.None? <==> n.None?
    ensures a.Some? ==> n == Some(Num(a.value))
  {
    match n
    case None => None
    case Some(Num(v)) => Some(v)
  }

  /** The decimal value of a digit field, or null when it is empty. */
  function FieldValue(text: string): Option<int> {
    if text == [] then None else Some(Value(text, 10))
  }

  /**
    `handleSave`: a form that fails validation shows its message and writes
    nothing; in edit mode a valid form only closes, with a notice that editing
    is not available; in add mode it inserts the trimmed title and the two
    numbers, and closes when the insert reports success.
   */
  function HandleSave(f: Form, editing: bool, currentYear: int, hook: State, now: int, faults: Faults): (r: Saved)
    requires Reachable(f) && Valid(hook.db)
    ensures Valid(r.hook.db) && r.hook.db.nextId >= hook.db.nextId
    ensures var v := Validate(f.title, f.year, f.rating, currentYear);
      && r.form == f.(error := ErrorAfter(v))
      && (v.Rejected? ==> r.hook == hook && !r.closed && r.notice == NoNotice)
      && (v.Accepted? && editing ==> r.hook == hook && r.closed && r.notice == EditPending)
      && (v.Accepted? && !editing ==>
            && (r.closed <==> !faults.writeThrows)
            && (r.notice == if faults.writeThrows then AddFailed else Added)
            && (faults.writeThrows ==> r.hook == hook)
            && (!faults.writeThrows && !faults.loadThrows ==> InSync(r.hook)))
    ensures r.hook.db != hook.db ==>
      var id := hook.db.nextId;
      && !editing
      && Validate(f.title, f.year, f.rating, currentYear) == Accepted
      && r.hook.db.rows.Keys == hook.db.rows.Keys + {id}
      && r.hook.db.rows[id] == Movie(id, Trim(f.title), FieldValue(f.year), 0, FieldValue(f.rating), now)
      && (forall k :: k in hook.db.rows ==> SameRow(hook.db, r.hook.db, k))
  {
    var v := Validate(f.title, f.year, f.rating, currentYear);
    var f' := f.(error := ErrorAfter(v));
    if v.Rejected? then
      Saved(f', hook, false, NoNotice)
    else if editing then
      Saved(f', hook, true, EditPending)
    else
      ReachableNumbers(f);
      DigitFieldNumber(f.year);
      DigitFieldNumber(f.rating);
      var o := InsertMovie(hook, Trim(f.title), Argument(NumberOf(f.year)), Argument(NumberOf(f.rating)), now, faults);
      Saved(f', o.state, o.returned, if o.returned then Added else AddFailed)
  }

  // ---------------------------------------------------------------------------
  // The rows the form writes
  // ---------------------------------------------------------------------------

  /**
    What a row written through the form satisfies: a trimmed, non-blank
    title; a year that is null, 0, or from 1900 to the current year; a rating
    that is null or from 1 to 5.
   */
  predicate RowOk(m: Movie, currentYear: int) {
    && !IsBlank(m.title) && Trim(m.title) == m.title
    && (m.year.None? || m.year.value == 0 || MinYear <= m.year.value <= currentYear)
    && (m.rating.None? || MinRating <= m.rating.value <= MaxRating)
  }

  predicate RowsOk(s: Store, currentYear: int) {
    forall id :: id in s.rows ==> RowOk(s.rows[id], currentYear)
  }

  /** Saving the form never puts a row into the table that breaks `RowOk`. */
  lemma SaveKeepsRowsOk(f: Form, editing: bool, currentYear: int, hook: State, now: int, faults: Faults)
    requires Reachable(f) && Valid(hook.db) && RowsOk(hook.db, currentYear)
    ensures RowsOk(HandleSave(f, editing, currentYear, hook, now, faults).hook.db, currentYear)
  {
  }

  /** A valid add-mode save with a working store writes and closes; a throwing write leaves the table alone. */
  lemma SaveWritesIffValid(f: Form, currentYear: int, hook: State, now: int, faults: Faults)
    requires Reachable(f) && Valid(hook.db)
    ensures var r := HandleSave(f, false, currentYear, hook, now, faults);
      r.hook.db != hook.db
      <==> Validate(f.title, f.year, f.rating, currentYear) == Accepted && !faults.writeThrows
  {
  }

  // ---------------------------------------------------------------------------
  // Scenarios
  // ---------------------------------------------------------------------------

  /** A valid add-mode save into an empty table leaves exactly the one row it wrote. */
  lemma AddToEmptyTable(f: Form, currentYear: int, now: int)
    requires Reachable(f) && !IsBlank(f.title)
    requires YearAllowed(f.year, currentYear) && RatingAllowed(f.rating)
    ensures var r := HandleSave(f, false, currentYear, Mount(Empty(), false), now, NoFaults);
      && r.closed && r.notice == Added
      && r.hook.db.rows == map[1 := Movie(1, Trim(f.title), FieldValue(f.year), 0, FieldValue(f.rating), now)]
      && r.hook.movies == r.hook.db.rows
  {
    ValidateOnDigits(f.title, f.year, f.rating, currentYear);
  }

  /** An empty title is refused with the title message and nothing is written. */
  lemma EmptyTitleRefused(currentYear: int, hook: State, now: int, faults: Faults)
    requires Valid(hook.db)
    ensures var r := HandleSave(Form("", "2020", "3", None), false, currentYear, hook, now, faults);
      r.form.error == Some(TitleRequired) && r.hook == hook && !r.closed
  {
  }

  /** A year of 1899 is refused with the year message. */
  lemma Year1899Refused(currentYear: int)
    ensures Validate("Old Film", "1899", "", currentYear) == Rejected(YearOutOfRange)
  {
    assert Value("1899", 10) == 1899 by {
      assert "1899"[..3] == "189" && "189"[..2] == "18" && "18"[..1] == "1" && "1"[..0] == [];
    }
    assert "Old Film"[0] == 'O';
    ValidateOnDigits("Old Film", "1899", "", currentYear);
  }
}

=== FILE: movie_store.dfy ===
/**
  The `movies` table and the effect of the four SQL statements the hook runs
  against it. The table is a map from id to row; SQLite's AUTOINCREMENT is an
  id counter that only grows, so an id is never handed out twice. None of the
  statements checks that its id exists: a `WHERE id = ?` that matches no row
  simply changes nothing.
 */
module MovieStore {
  import opened Types

  datatype Store = Store(rows: map<int, Movie>, nextId: int)

  /** Every row sits under its own id, and every id is below the counter. */
  predicate Valid(s: Store) {
    && s.nextId >= 1
    && forall id :: id in s.rows ==> 1 <= id < s.nextId && s.rows[id].id == id
  }

  /** The table before the first insert. */
  function Empty(): (s: Store)
    ensures Valid(s) && s.rows == map[]
  {
    Store(map[], 1)
  }

  /** Row `id` of `s` is the same in `t`. */
  predicate SameRow(s: Store, t: Store, id: int) {
    id in s.rows && id in t.rows && t.rows[id] == s.rows[id]
  }

  /**
    `INSERT INTO movies (title, year, watched, rating, created_at) VALUES (?, ?, 0, ?, now)`:
    exactly one new row, under a fresh id, unwatched and stamped with the clock;
    every existing row is kept as it was.
   */
  function Insert(s: Store, title: string, year: Option<int>, rating: Option<int>, now: int): (r: Store)
    requires Valid(s)
    ensures Valid(r)
    ensures s.nextId !in s.rows && r.rows.Keys == s.rows.Keys + {s.nextId}
    ensures |r.rows| == |s.rows| + 1
    ensures r.rows[s.nextId] == Movie(s.nextId, title, year, 0, rating, now)
    ensures forall id :: id in s.rows ==> SameRow(s, r, id) && id < s.nextId
    ensures r.nextId > s.nextId
  {
    var id := s.nextId;
    Store(s.rows[id := Movie(id, title, year, 0, rating, now)], id + 1)
  }

  /**
    `UPDATE movies SET watched = ? WHERE id = ?`: only the watched flag of the
    matching row changes; with no matching row nothing changes.
   */
  function SetWatched(s: Store, id: int, watched: Bit): (r: Store)
    ensures r.rows.Keys == s.rows.Keys && r.nextId == s.nextId
    ensures id in s.rows ==> r.rows[id] == s.rows[id].(watched := watched)
    ensures forall k :: k in s.rows && k != id ==> SameRow(s, r, k)
    ensures id !in s.rows ==> r == s
    ensures Valid(s) ==> Valid(r)
  {
    if id in s.rows then Store(s.rows[id := s.rows[id].(watched := watched)], s.nextId) else s
  }

  /**
    `UPDATE movies SET title = ?, year = ?, rating = ? WHERE id = ?`: the three
    fields of the matching row are overwritten; its id, watched flag and
    creation time stay, and so does every other row.
   */
  function Update(s: Store, id: int, title: string, year: Option<int>, rating: Option<int>): (r: Store)
    ensures r.rows.Keys == s.rows.Keys && r.nextId == s.nextId
    ensures id in s.rows ==>
      && r.rows[id].title == title && r.rows[id].year == year && r.rows[id].rating == rating
      && r.rows[id].id == s.rows[id].id
      && r.rows[id].watched == s.rows[id].watched
      && r.rows[id].createdAt == s.rows[id].createdAt
    ensures forall k :: k in s.rows && k != id ==> SameRow(s, r, k)
    ensures id !in s.rows ==> r == s
    ensures Valid(s) ==> Valid(r)
  {
    if id in s.rows then
      Store(s.rows[id := s.rows[id].(title := title, year := year, rating := rating)], s.nextId)
    else
      s
  }

  /**
    `DELETE FROM movies WHERE id = ?`: the matching row goes, every other row
    stays, and the id counter does not move back.
   */
  function Delete(s: Store, id: int): (r: Store)
    ensures r.rows.Keys == s.rows.Keys - {id} && r.nextId == s.nextId
    ensures forall k :: k in s.rows && k != id ==> SameRow(s, r, k)
    ensures id in s.rows ==> |r.rows| == |s.rows| - 1
    ensures id !in s.rows ==> r == s
    ensures Valid(s) ==> Valid(r)
  {
    if id in s.rows then Store(s.rows - {id}, s.nextId) else s
  }

  // ---------------------------------------------------------------------------
  // Relations between the statements
  // ---------------------------------------------------------------------------

  /** Deleting the row just inserted restores the rows, but not the id counter. */
  lemma DeleteUndoesInsert(s: Store, title: string, year: Option<int>, rating: Option<int>, now: int)
    requires Valid(s)
    ensures Delete(Insert(s, title, year, rating, now), s.nextId).rows == s.rows
    ensures Delete(Insert(s, title, year, rating, now), s.nextId).nextId == s.nextId + 1
  {
  }

  /** Writing a row's old title, year and rating back undoes an update. */
  lemma UpdateRoundTrip(s: Store, id: int, title: string, year: Option<int>, rating: Option<int>)
    requires id in s.rows
    ensures var m := s.rows[id];
      Update(Update(s, id, title, year, rating), id, m.title, m.year, m.rating) == s
  {
  }

  /** Setting a row's watched flag to the value it already has changes nothing. */
  lemma SetWatchedSame(s: Store, id: int)
    requires id in s.rows
    ensures SetWatched(s, id, s.rows[id].watched) == s
  {
  }

  /**
    A deleted id is never handed out again: whatever is inserted afterwards
    gets another id.
   */
  lemma DeletedIdNotReused(s: Store, id: int, title: string, year: Option<int>, rating: Option<int>, now: int)
    requires Valid(s) && id in s.rows
    ensures var d := Delete(s, id);
      Valid(d) && Insert(d, title, year, rating, now).rows.Keys - d.rows.Keys == {d.nextId}
      && d.nextId != id
  {
  }
}

=== FILE: types.dfy ===
/**
  The record shape of one row of the `movies` table, and the small option type
  the rest of the model uses for SQL `NULL` and for JavaScript `null`.
 */
module Types {

  /** `None` is SQL NULL / JavaScript null. */
  datatype Option<+T> = None | Some(value: T)

  /** The watched flag is stored as the integer 0 or 1. */
  type Bit = b: int | 0 <= b <= 1

  /**
    One movie row. `year` is optional here although the record type declares it
    non-null: both the insert and the update statement may bind a null year.
    `rating` is documented as 1..5 or null, but nothing in the table enforces it.
   */
  datatype Movie = Movie(
    id: int,
    title: string,
    year: Option<int>,
    watched: Bit,
    rating: Option<int>,
    createdAt: int)
}

=== FILE: use_movies.dfy ===
/**
  The `useMovies` hook: a `movies` snapshot of the table plus four mutations.
  Each mutation runs one statement inside `try`; when the statement throws it
  returns false and touches nothing, otherwise it reloads the whole table into
  `movies` and returns true. The reload catches its own error, so a failed
  reload leaves the old snapshot in place and the mutation still returns true.

  The snapshot is kept as a map from id to row: the listing query is not part
  of this model, so the order of the loaded list is not either.
 */
module UseMovies {
  import opened Types
  import opened MovieStore

  /** The shared table and this hook instance's copy of it. */
  datatype State = State(db: Store, movies: map<int, Movie>)

  /** Which of the two storage calls throws during one operation. */
  datatype Faults = Faults(writeThrows: bool, loadThrows: bool)

  /** The state after an operation and the boolean the operation returns. */
  datatype Outcome = Outcome(state: State, returned: bool)

  /** The snapshot shows the whole table. */
  predicate InSync(st: State) {
    st.movies == st.db.rows
  }

  /**
    `loadMovies`: replaces the snapshot wholesale with the table's rows, or,
    if the read throws, keeps the old snapshot. The table is never touched.
   */
  function LoadMovies(st: State, loadThrows: bool): (r: State)
    ensures r.db == st.db
    ensures !loadThrows ==> InSync(r)
    ensures loadThrows ==> r == st
  {
    if loadThrows then st else st.(movies := st.db.rows)
  }

  /** The mount effect: one load of the table. */
  function Mount(db: Store, loadThrows: bool): (r: State)
    ensures r.db == db
    ensures !loadThrows ==> InSync(r)
    ensures loadThrows ==> r.movies == map[]
  {
    LoadMovies(State(db, map[]), loadThrows)
  }

  /**
    The `try { write; loadMovies(); return true } catch { return false }` shape
    shared by the four mutations, given the table the write would leave.
   */
  function Commit(st: State, written: Store, faults: Faults): (o: Outcome)
    ensures o.returned <==> !faults.writeThrows
    ensures !o.returned ==> o.state == st
    ensures o.returned ==> o.state.db == written
    ensures o.returned && !faults.loadThrows ==> InSync(o.state)
    ensures o.returned && faults.loadThrows ==> o.state.movies == st.movies
  {
    if faults.writeThrows then Outcome(st, false)
    else Outcome(LoadMovies(st.(db := written), faults.loadThrows), true)
  }

  /**
    `insertMovie(title, year, rating)`: on success the table gains exactly one
    row with these fields, watched 0 and the clock value as creation time.
   */
  function InsertMovie(st: State, title: string, year: Option<int>, rating: Option<int>, now: int, faults: Faults): (o: Outcome)
    requires Valid(st.db)
    ensures o.returned <==> !faults.writeThrows
    ensures !o.returned ==> o.state == st
    ensures o.returned ==>
      var id := st.db.nextId;
      && Valid(o.state.db)
      && o.state.db.rows.Keys == st.db.rows.Keys + {id}
      && id !in st.db.rows
      && o.state.db.rows[id] == Movie(id, title, year, 0, rating, now)
      && (forall k :: k in st.db.rows ==> SameRow(st.db, o.state.db, k))
    ensures o.returned && !faults.loadThrows ==> InSync(o.state)
  {
    Commit(st, Insert(st.db, title, year, rating, now), faults)
  }

  /** `currentWatched === 0 ? 1 : 0`. */
  function Flip(w: Bit): (r: Bit)
    ensures r != w
  {
    if w == 0 then 1 else 0
  }

  /**
    `toggleWatched(id, currentWatched)`: writes the opposite of the flag the
    caller passes in, not of the flag stored in the table; only that field of
    row `id` changes.
   */
  function ToggleWatched(st: State, id: int, currentWatched: Bit, faults: Faults): (o: Outcome)
    ensures o.returned <==> !faults.writeThrows
    ensures !o.returned ==> o.state == st
    ensures o.returned ==>
      && o.state.db.rows.Keys == st.db.rows.Keys
      && (id in st.db.rows ==> o.state.db.rows[id] == st.db.rows[id].(watched := 1 - currentWatched))
      && (forall k :: k in st.db.rows && k != id ==> SameRow(st.db, o.state.db, k))
      && o.state.db.nextId == st.db.nextId
    ensures o.returned && !faults.loadThrows ==> InSync(o.state)
    ensures Valid(st.db) ==> Valid(o.state.db)
  {
    Commit(st, SetWatched(st.db, id, Flip(currentWatched)), faults)
  }

  /**
    `updateMovie(id, title, year, rating)`: on success row `id` carries the
    new title, year and rating and keeps its id, flag and creation time.
   */
  function UpdateMovie(st: State, id: int, title: string, year: Option<int>, rating: Option<int>, faults: Faults): (o: Outcome)
    ensures o.returned <==> !faults.writeThrows
    ensures !o.returned ==> o.state == st
    ensures o.returned ==>
      && o.state.db.rows.Keys == st.db.rows.Keys
      && (id in st.db.rows ==>
            var m := st.db.rows[id];
            o.state.db.rows[id] == Movie(m.id, title, year, m.watched, rating, m.createdAt))
      && (forall k :: k in st.db.rows && k != id ==> SameRow(st.db, o.state.db, k))
      && o.state.db.nextId == st.db.nextId
    ensures o.returned && !faults.loadThrows ==> InSync(o.state)
    ensures Valid(st.db) ==> Valid(o.state.db)
  {
    Commit(st, Update(st.db, id, title, year, rating), faults)
  }

  /** `deleteMovie(id)`: on success row `id` is gone and every other row stays. */
  function DeleteMovie(st: State, id: int, faults: Faults): (o: Outcome)
    ensures o.returned <==> !faults.writeThrows
    ensures !o.returned ==> o.state == st
    ensures o.returned ==>
      && o.state.db.rows.Keys == st.db.rows.Keys - {id}
      && (forall k :: k in st.db.rows && k != id ==> SameRow(st.db, o.state.db, k))
      && o.state.db.nextId == st.db.nextId
    ensures o.returned && !faults.loadThrows ==> InSync(o.state)
    ensures Valid(st.db) ==> Valid(o.state.db)
  {
    Commit(st, Delete(st.db, id), faults)
  }

  // ---------------------------------------------------------------------------
  // Properties across calls
  // ---------------------------------------------------------------------------

  /** The flip is its own inverse on 0 and 1. */
  lemma FlipTwice(w: Bit)
    ensures Flip(Flip(w)) == w
  {
  }

  const NoFaults := Faults(false, false)

  /**
    Toggling twice, each time passing the flag the row currently holds,
    restores the table.
   */
  lemma ToggleTwiceRestores(st: State, id: int)
    requires id in st.db.rows
    ensures var o1 := ToggleWatched(st, id, st.db.rows[id].watched, NoFaults);
      id in o1.state.db.rows
      && ToggleWatched(o1.state, id, o1.state.db.rows[id].watched, NoFaults).state.db == st.db
  {
  }

  /**
    A caller that passes a stale flag (the opposite of what the row holds)
    gets no toggle at all: the row is rewritten with the value it already has.
   */
  lemma StaleToggleChangesNothing(st: State, id: int, faults: Faults)
    requires id in st.db.rows
    ensures ToggleWatched(st, id, Flip(st.db.rows[id].watched), faults).state.db == st.db
  {
  }

  /**
    With an id that is in no row, toggle, update and delete leave the table as
    it was and still report success unless the write throws.
   */
  lemma AbsentIdLeavesTable(st: State, id: int, w: Bit, title: string, year: Option<int>, rating: Option<int>, faults: Faults)
    requires id !in st.db.rows
    ensures var o := ToggleWatched(st, id, w, faults); o.state.db == st.db && (o.returned <==> !faults.writeThrows)
    ensures var o := UpdateMovie(st, id, title, year, rating, faults); o.state.db == st.db && (o.returned <==> !faults.writeThrows)
    ensures var o := DeleteMovie(st, id, faults); o.state.db == st.db && (o.returned <==> !faults.writeThrows)
  {
  }

  /**
    A toggle, of any row, keeps every row present with its title, year,
    rating and creation time unchanged; a delete keeps every row other than
    the deleted one exactly as it was, and every row when the write throws.
   */
  lemma ToggleAndDeleteKeepRowFields(st: State, id: int, w: Bit, faults: Faults, k: int)
    requires k in st.db.rows
    ensures var o := ToggleWatched(st, id, w, faults);
      k in o.state.db.rows
      && o.state.db.rows[k].title == st.db.rows[k].title
      && o.state.db.rows[k].year == st.db.rows[k].year
      && o.state.db.rows[k].rating == st.db.rows[k].rating
      && o.state.db.rows[k].createdAt == st.db.rows[k].createdAt
    ensures var o := DeleteMovie(st, id, faults);
      k != id || !o.returned ==> SameRow(st.db, o.state.db, k)
  {
  }

  /** Inserting "Dune", 2021, 4 into an empty table leaves exactly that one unwatched row, and shows it. */
  lemma InsertDuneIntoEmptyTable(now: int)
    ensures var o := InsertMovie(Mount(Empty(), false), "Dune", Some(2021), Some(4), now, NoFaults);
      && o.returned
      && o.state.db.rows == map[1 := Movie(1, "Dune", Some(2021), 0, Some(4), now)]
      && o.state.movies == o.state.db.rows
  {
    var o := InsertMovie(Mount(Empty(), false), "Dune", Some(2021), Some(4), now, NoFaults);
    assert o.state.db.rows.Keys == {1};
  }
}
